=== FILE: README.md ===
# Devil's AI debate trainer: the turn logic, in Dafny

Devil's AI is a Flask application for debate practice. A language model
argues a wrong position on a topic the student picks, and the student
rebuts it. Each rebuttal is scored by a second model call, the "judge".
Extreme scores are appended to a CSV ledger of results.

This project models the state logic of the four pieces of `app.py` that
carry it:

- `iniciar_debate` opens a debate.
- `responder` plays one turn: it appends the user turn, asks the judge,
  asks the debater, and may write a ledger row.
- `salvar_historico_pandas` appends a ledger row.
- `get_historico` reads back the recent rows.

Every call to the Gemini service is a function parameter: given the
request it would be sent, it returns text (`Returned`) or the message of
the exception it raised (`Raised`). `json.loads` is a parameter
`parse: string -> Option<Json>`. The clock's reading is a `date`
argument. The `random.choice` of a fallacy is an argument constrained to
the four listed names. Whether a CSV read or write raises is a boolean
argument.

Modules:

- `Wrappers` holds `Option` (missing session or JSON keys) and `Call`
  (the outcome of a model call).
- `Fences` holds the clean-up of the judge reply (`replace` twice, then
  `strip`). `Fences.IsSpace` is the character set of Python's
  `str.isspace`; the `TrimStart` and `TrimEnd` rows below are stated in
  terms of it.
- `Transcript` holds turns and the choice of the model utterance quoted
  to the judge.
- `Judge` holds the judge data, its fallback object and the per-field
  defaults.
- `Ledger` holds ledger rows, the winner rule, the append and the
  "last ten, newest first" read.
- `Debate` holds the session and the two handlers. `Respond` is the turn
  handler with one correction, described under Findings.
  `RespondAsWritten` is the same handler exactly as the code stands.

Four facts about the handlers, all followed by the model:

- There is no guardrail step and no language choice.
- There is no debate identifier and no "finalized" latch. Every turn
  with an extreme score writes another ledger row, with no
  de-duplication.
- There is no separate transcript store. The transcript lives in the
  session.
- The user turn is appended before the debater call, and it is not
  withdrawn when that call fails.

## Model

| member | source | states |
|---|---|---|
| Debate.StartDebate | app.py:71-115 | Without an API key, or with a missing or empty topic, it returns the matching error and leaves the session untouched. Otherwise it sets the topic and clears the transcript before calling the model. On failure the transcript stays empty and the error carries the exception text. On success the transcript is exactly [user(opening prompt), model(reply)], the score is 50 and the feedback names the chosen fallacy. |
| Debate.Respond | app.py:117-197 | Without an API key it returns an error and changes nothing. The debater gets exactly the earlier transcript as history, plus the new message on its own. The turn succeeds iff the debater replies; then the transcript grows by the user message followed by the reply. If the debater raises, the turn returns its error, appends no model turn and writes no row. The user message stays in a stored transcript, and a session without one still has none. The judge is shown the model utterance chosen by PreviousModelUtterance. If the judge call or decoding fails, the verdict is 50 / "Análise indisponível" / false. Missing fields default to 50 / "Sem feedback" / false. A ledger row is written iff the turn replied, its score is >= 95 or <= 5, and saving did not fail. The row holds that score, the topic (default "Desconhecido") and the derived winner. The handler never raises. |
| Debate.RespondAsWritten | app.py:117-197 | The handler as written ends in a server error exactly when the API key is present, the debater replies, and the judge data is not a JSON object. In that case no ledger row has been written, and the session's transcript is already the prior turns followed by the user's message and the debater's reply. |
| Debate.AsWrittenAgreesOnObjects | app.py:117-197 | For every input, the handler as written either ends in a server error or gives the same session, ledger and response as the corrected one. In particular they agree whenever the judge data is a JSON object or the fallback. |
| Debate.NonObjectJudgeReplyCrashes | app.py:152-197 | Take a judge reply that decodes to a list. The handler as written stores the new transcript and then fails with a server error. The corrected handler returns the debater's reply with the neutral verdict. |
| Debate.TranscriptAfterStartAndTwoTurns | app.py:105-182 | After a successful start and two turns whose debater replies, the transcript is exactly opening prompt, opening reply, message 1, reply 1, message 2, reply 2. Each reply is the debater's answer to the transcript before it. |
| Debate.ExtremeTurnAppends | app.py:189-215 | A turn whose debater replies and whose judge returns only a score of 97 appends exactly one row. The row holds that score, the session's topic and the winner 'Aluno', and the key and topic are kept. |
| Debate.EveryExtremeTurnWrites | app.py:189-190 | Two turns of one debate that both score 97 append two rows, in order, both won by 'Aluno'. Nothing de-duplicates them. |
| Debate.NeutralTurnNeverWrites | app.py:189-190 | A replied turn scored 50 leaves the ledger unchanged. |
| Transcript.LastModelIndex | app.py:133-136 | It returns the index of the most recent model turn, or none exactly when the sequence has no model turn. |
| Transcript.PreviousModelUtterance | app.py:131-136 | The judge is shown "Início" when the transcript, new message included, has fewer than 3 entries or has no model turn before the new message. Otherwise it is shown the text of the most recent model turn strictly before the new message. |
| Transcript.FirstRebuttalQuotesOpening | app.py:131-136 | The first rebuttal after an opening is judged against the opening statement. |
| Transcript.HistoryExcludesNewMessage | app.py:163-177 | The history built from the transcript minus its last entry is exactly the transcript before the new user message. |
| Fences.StripFences | app.py:150 | The cleaned judge reply contains no triple backtick, and it has no whitespace at either end. A reply without any "```" is only trimmed. |
| Fences.FencedReplyUnwrapped | app.py:150 | A reply of the form "```json" + b + "```" comes out as exactly b, when b holds no backtick and no whitespace at either end. |
| Fences.StripFencesIdempotent | app.py:150 | Cleaning an already cleaned reply changes nothing. |
| Fences.RemoveFenceLeavesNone | app.py:150 | After every "```" has been removed left to right, no "```" is left. This pass removes only backticks, so it never joins two runs; only the earlier "```json" pass can. Inside a run of n backticks the scan removes three at a time and leaves n mod 3; Fences.RemoveFenceLeadTicks states this for the leading run. |
| Fences.RemoveAll | app.py:150 | Python's `s.replace(pat, '')`, scanning left to right. The result is no longer than the input and contains only characters of the input. It is the input itself when `pat` does not occur in it. For a non-empty `pat`, it is strictly shorter whenever `pat` does occur. |
| Fences.TrimStart | app.py:150 | The result is a suffix of the input. Everything dropped is whitespace, and the result does not start with whitespace. |
| Fences.TrimEnd | app.py:150 | The result is a prefix of the input. Everything dropped is whitespace, and the result does not end with whitespace. |
| Fences.Trim | app.py:150 | The result is no longer than the input and has no whitespace at either end. |
| Judge.JudgeData | app.py:145-155 | A judge call that raises, or a reply that does not decode, yields the fallback object (score 50, "Análise indisponível", false). Any other result is exactly what the cleaned reply decoded to. |
| Judge.ReadVerdict | app.py:189-196 | The score, feedback and fallacy flag are the decoded fields when present, and 50, "Sem feedback" and false when missing. Non-object data reads as the neutral verdict (the correction). |
| Judge.ReadVerdictAsWritten | app.py:189-196 | Reading fails exactly when the data is not an object. Otherwise it agrees with ReadVerdict. |
| Judge.JudgeFailureIsNeutral | app.py:153-155 | A failed judge call or undecodable reply yields the verdict 50 / "Análise indisponível" / false. |
| Ledger.WinnerFor | app.py:210 | The winner is 'Aluno' iff the score is > 50, and 'IA' otherwise. |
| Ledger.ExtremeWinner | app.py:189-190 | Among scores that are written, the student wins exactly at >= 95 and the model exactly at <= 5. |
| Ledger.Save | app.py:199-217 | On failure the file is unchanged. Otherwise exactly one row is added at the end and earlier rows are unchanged; a missing file starts empty. The row holds the date, the topic (default "Desconhecido"), the score and the winner 'Aluno' iff the score is > 50. |
| Ledger.Recent | app.py:224 | It returns min(10, n) rows. |
| Ledger.RecentIsReversedTail | app.py:224 | The recent view equals `tail(10)` followed by reversal, so element i is row n-1-i. |
| Ledger.History | app.py:219-227 | It returns [] when reading fails or the file is missing. Otherwise it returns min(10, n) rows, most recent first, with element i being row n-1-i. |
| Ledger.RecentAfterAppend | app.py:224 | Appending a row puts it first in the recent view, followed by the earlier view cut to nine rows. |
| Ledger.SavedRowReadFirst | app.py:199-227 | After a successful save, reading the history returns the new row first, then what was read before, cut to nine rows. |

## Left out

- Gemini calls (`genai.Client`, `generate_content`, `chats.create`, `send_message`), `testar_conexao` and `set_api_key`: these are network calls into a library outside this model. Their results are parameters. A reply object without text is modelled as a raised call.
- `json.loads`: it is the `parse` parameter. Field values of other JSON types (null, strings, floats) are not modelled. For such values the score comparison at line 189 would itself raise, or compare differently.
- pandas and CSV I/O, `os.path.exists` and the file creation at import time (lines 14-16): the file is a `Store` (`Missing` or `Csv(rows)`). Every exception is a boolean input, and a failed write leaves the store unchanged. Column type conversion on read-back and `to_json` are not modelled.
- Flask routing, `render_template` and JSON encoding of responses: these are not part of this model. A request body that is not JSON, and a missing `mensagem`, are not modelled. The message is always a string.
- Cookie-session persistence: the model gives the in-memory session after each handler. When the debater fails, the user turn has been appended in place to the stored list, so it is kept. If there was no stored list it is lost. Whether Flask then saves the cookie is not modelled.
- `datetime.now()`: the date is an opaque string argument.
- `random.choice`: the chosen fallacy is an argument required to be one of the four listed names.
- Prompt wording: `Debate.OpeningPrompt` is a paraphrase that varies only in the topic and the fallacy. The judge and debater prompts are modelled by what they carry (`JudgeQuery`, `DebaterQuery`), not their text.
- `not tema` on a topic that is not a string (a number, a list): the topic is an optional string, and only absence and "" count as empty.
- `str.replace` and `str.strip` are modelled on Unicode code points, with `str.isspace`'s character set. No normalisation is modelled.
- Fences.Trim: its own contract states only that no whitespace is left at either end. That only whitespace was removed is stated by Fences.TrimStart and Fences.TrimEnd.
- Fences.RemoveAll: its contract does not pin which occurrences are removed, or that the rest of the text keeps its order. For the fence pattern, Fences.RemoveFenceLeavesNone and Fences.StripFences state that no fence is left.
- Ledger.Recent: its own contract states only the length. The element order is stated by Ledger.RecentIsReversedTail and Ledger.History.

## Findings

| source | as written | input that shows it | evidently intended | confidence | as-written member | corrected member |
|---|---|---|---|---|---|---|
| app.py:152-196 | The judge reply is decoded inside the `try` that supplies the fallback verdict. The decoded value is then read with `.get` after that `try`, at lines 189-196, where nothing catches an error. A reply that decodes to a JSON list, number or string makes `.get` raise. By then the debater's reply is already in the session transcript, and the user gets a server error instead of the reply. | the judge answers `[]` and the debater answers normally | a judge reply that is not a JSON object is treated like one that does not decode: neutral verdict 50 / "Análise indisponível" / false, and the turn succeeds | not executed; high (plain Python semantics of `list.get`) | Debate.RespondAsWritten (shown by Debate.NonObjectJudgeReplyCrashes) | Debate.Respond |

=== FILE: debate.dfy ===
/** The two request handlers that drive a debate: `iniciar_debate` opens it
    and `responder` plays one turn (judge, then debater, then the ledger).
    Every call to the text-generation service is a parameter: given the
    request it is sent, it returns text or raises. */
module Debate {
  import opened Wrappers
  import opened Transcript
  import Fences
  import Judge
  import Ledger

  /** The Flask session keys this core reads and writes; each may be absent. */
  datatype Session = Session(apiKey: Option<string>, chat: Option<seq<Turn>>, topic: Option<string>)

  /** The JSON body a handler answers with. `ServerError` stands for an
      exception that escapes the handler. */
  datatype Response =
    | Failure(message: string)
    | Opening(message: string, score: int, feedback: string)
    | Reply(message: string, score: int, feedback: string, fallacy: bool)
    | ServerError

  datatype Started = Started(session: Session, response: Response)

  datatype Turned = Turned(session: Session, store: Ledger.Store, response: Response)

  /** What the judge is shown: the topic, the model utterance it rebuts and
      the user's answer (the prompt wording around them is not modelled). */
  datatype JudgeQuery = JudgeQuery(topic: Option<string>, previous: string, answer: string)

  /** What the debater chat is created with: the earlier turns as history,
      and the new user message sent on its own. */
  datatype DebaterQuery = DebaterQuery(history: seq<Turn>, message: string)

  const NoKeyToStart: string := "Configure a API Key na aba Configurações primeiro!"
  const NoTopic: string := "Por favor, digite um tema."
  const NoKey: string := "Sem API Key"
  const StartFailedPrefix: string := "Erro na API: "
  const ReplyFailedPrefix: string := "Erro na resposta da IA: "
  const OpeningScore: int := 50

  /** The fallacies the debater may be told to open with. */
  const Fallacies: seq<string> := ["Falsa Causalidade", "Espantalho", "Generalização Apressada", "Apelo à Autoridade Anônima"]

  /** The instruction that opens a debate on `topic` with `fallacy`
      (paraphrased; only the topic and the fallacy vary). */
  function OpeningPrompt(topic: string, fallacy: string): string {
    "<debater instructions>\n\nTOPIC: '" + topic + "'.\nOpen with a distorted claim about '"
      + topic + "' built on the fallacy " + fallacy + "."
  }

  function OpeningFeedback(fallacy: string): string {
    "O debate começou! Tática: " + fallacy + "."
  }

  /** The transcript the handlers read: `session.get('historico_chat', [])`. */
  function Prior(s: Session): seq<Turn> {
    s.chat.GetOr([])
  }

  /** `iniciar_debate`. `fallacy` is the one `random.choice` picked and
      `opener` answers the opening prompt. */
  function StartDebate(s: Session, topicIn: Option<string>, fallacy: string,
                       opener: string -> Call<string>): (r: Started)
    requires fallacy in Fallacies
    ensures s.apiKey.None? ==> r == Started(s, Failure(NoKeyToStart))
    ensures s.apiKey.Some? && (topicIn.None? || topicIn.value == "") ==> r == Started(s, Failure(NoTopic))
    ensures r.session != s ==> s.apiKey.Some? && topicIn.Some? && topicIn.value != ""
    ensures r.session.apiKey == s.apiKey
    ensures r.response.Opening? <==>
      s.apiKey.Some? && topicIn.Some? && topicIn.value != "" && opener(OpeningPrompt(topicIn.value, fallacy)).Returned?
    ensures r.response.Opening? ==>
      && r.session.topic == topicIn
      && r.session.chat == Some([Turn(User, OpeningPrompt(topicIn.value, fallacy)), Turn(Model, r.response.message)])
      && opener(OpeningPrompt(topicIn.value, fallacy)) == Returned(r.response.message)
      && r.response.score == OpeningScore
      && r.response.feedback == OpeningFeedback(fallacy)
    ensures (s.apiKey.Some? && topicIn.Some? && topicIn.value != ""
             && opener(OpeningPrompt(topicIn.value, fallacy)).Raised?) ==>
        r == Started(s.(chat := Some([]), topic := topicIn),
                     Failure(StartFailedPrefix + opener(OpeningPrompt(topicIn.value, fallacy)).reason))
  {
    if s.apiKey.None? then Started(s, Failure(NoKeyToStart))
    else if topicIn.None? || topicIn.value == "" then Started(s, Failure(NoTopic))
    else
      var topic := topicIn.value;
      var cleared := s.(chat := Some([]), topic := Some(topic));
      var prompt := OpeningPrompt(topic, fallacy);
      match opener(prompt)
      case Raised(e) => Started(cleared, Failure(StartFailedPrefix + e))
      case Returned(text) =>
        Started(cleared.(chat := Some([Turn(User, prompt), Turn(Model, text)])),
                Opening(text, OpeningScore, OpeningFeedback(fallacy)))
  }

  /** The judge request for a turn whose transcript, new message included,
      is `working`. */
  function JudgeQueryFor(s: Session, working: seq<Turn>, msg: string): JudgeQuery {
    JudgeQuery(s.topic, PreviousModelUtterance(working), msg)
  }

  /** The session after a debater failure: the user turn was appended in
      place to the list stored in the session, if there was one; a list
      that `session.get` made up on the spot is dropped. */
  function AfterDebaterFailure(s: Session, working: seq<Turn>): Session {
    if s.chat.Some? then s.(chat := Some(working)) else s
  }

  /** The transcript a turn works on: the one read from the session with
      the new user message appended (app.py line 126). */
  function Working(s: Session, msg: string): seq<Turn> {
    Prior(s) + [Turn(User, msg)]
  }

  /** The judge data of a turn: the first `try` block of `responder`. */
  function TurnJudgeData(s: Session, msg: string,
                         judge: JudgeQuery -> Call<string>, parse: string -> Option<Judge.Json>): Judge.Json {
    Judge.JudgeData(judge(JudgeQueryFor(s, Working(s, msg), msg)), parse)
  }

  /** The session once the debater has replied: the reply follows the new
      user message (app.py lines 182-183). */
  function WithReply(s: Session, msg: string, reply: string): (s': Session)
    ensures s'.chat == Some(Prior(s) + [Turn(User, msg), Turn(Model, reply)])
    ensures s'.apiKey == s.apiKey && s'.topic == s.topic
  {
    assert Working(s, msg) + [Turn(Model, reply)] == Prior(s) + [Turn(User, msg), Turn(Model, reply)];
    s.(chat := Some(Working(s, msg) + [Turn(Model, reply)]))
  }

  /** The end of a replied turn once a verdict `v` has been read: the
      ledger write of lines 189-190 and the response of lines 192-197. */
  function Replied(s: Session, msg: string, reply: string, v: Judge.Verdict,
                   st: Ledger.Store, date: string, saveFails: bool): Turned {
    var st' := if Ledger.Extreme(v.score) then Ledger.Save(st, date, s.topic, v.score, saveFails) else st;
    Turned(WithReply(s, msg, reply), st', Reply(reply, v.score, v.feedback, v.fallacy))
  }

  /** `responder` with the judge's data read safely: a judge reply that is
      not a JSON object is treated like one that does not decode. */
  function Respond(s: Session, msg: string,
                   judge: JudgeQuery -> Call<string>, parse: string -> Option<Judge.Json>,
                   debater: DebaterQuery -> Call<string>,
                   st: Ledger.Store, date: string, saveFails: bool): (t: Turned)
    // without a key nothing happens
    ensures s.apiKey.None? ==> t == Turned(s, st, Failure(NoKey))
    ensures t.session.apiKey == s.apiKey && t.session.topic == s.topic
    // the handler never raises
    ensures t.response.Reply? || t.response.Failure?
    // the debater sees exactly the earlier transcript plus the new message
    ensures t.response.Reply? <==> s.apiKey.Some? && debater(DebaterQuery(Prior(s), msg)).Returned?
    ensures t.response.Reply? ==>
      && debater(DebaterQuery(Prior(s), msg)) == Returned(t.response.message)
      && t.session.chat == Some(Prior(s) + [Turn(User, msg), Turn(Model, t.response.message)])
    // a debater failure reports the error and appends no model turn
    ensures s.apiKey.Some? && debater(DebaterQuery(Prior(s), msg)).Raised? ==>
      && t.response == Failure(ReplyFailedPrefix + debater(DebaterQuery(Prior(s), msg)).reason)
      && t.session.chat == (if s.chat.Some? then Some(Prior(s) + [Turn(User, msg)]) else None)
      && t.store == st
    // the judge sees the last model utterance before the new message
    ensures var reply := judge(JudgeQuery(s.topic, PreviousModelUtterance(Prior(s) + [Turn(User, msg)]), msg));
      t.response.Reply? && (reply.Raised? || parse(Fences.StripFences(reply.value)).None?) ==>
        t.response.score == Judge.NeutralScore && t.response.feedback == Judge.UnavailableFeedback && !t.response.fallacy
    ensures var reply := judge(JudgeQuery(s.topic, PreviousModelUtterance(Prior(s) + [Turn(User, msg)]), msg));
      t.response.Reply? && reply.Returned? && parse(Fences.StripFences(reply.value)) == Some(Judge.NonObject) ==>
        t.response.score == Judge.NeutralScore && t.response.feedback == Judge.UnavailableFeedback && !t.response.fallacy
    ensures var reply := judge(JudgeQuery(s.topic, PreviousModelUtterance(Prior(s) + [Turn(User, msg)]), msg));
      forall f :: t.response.Reply? && reply.Returned? && parse(Fences.StripFences(reply.value)) == Some(Judge.Object(f)) ==>
        && t.response.score == f.score.GetOr(Judge.NeutralScore)
        && t.response.feedback == f.feedback.GetOr(Judge.MissingFeedback)
        && t.response.fallacy == f.fallacy.GetOr(false)
    // a ledger row is written exactly on a replied turn with an extreme score
    ensures t.store != st <==> t.response.Reply? && Ledger.Extreme(t.response.score) && !saveFails
    ensures t.store != st ==>
      Ledger.Rows(t.store) == Ledger.Rows(st)
        + [Ledger.Record(date, s.topic.GetOr(Ledger.UnknownTopic), t.response.score, Ledger.WinnerFor(t.response.score))]
  {
    if s.apiKey.None? then Turned(s, st, Failure(NoKey))
    else
      var working := Working(s, msg);
      var data := TurnJudgeData(s, msg, judge, parse);
      HistoryExcludesNewMessage(Prior(s), msg);
      match debater(DebaterQuery(AllButLast(working), msg))
      case Raised(e) => Turned(AfterDebaterFailure(s, working), st, Failure(ReplyFailedPrefix + e))
      case Returned(reply) => Replied(s, msg, reply, Judge.ReadVerdict(data), st, date, saveFails)
  }

  /** `responder` exactly as written: after the debater has replied and the
      session has been updated, `.get` is called on the judge data, which
      raises when the judge's JSON is not an object; nothing catches it. */
  function RespondAsWritten(s: Session, msg: string,
                            judge: JudgeQuery -> Call<string>, parse: string -> Option<Judge.Json>,
                            debater: DebaterQuery -> Call<string>,
                            st: Ledger.Store, date: string, saveFails: bool): (t: Turned)
    ensures t.response.ServerError? ==> t.store == st && t.session.chat.Some?
    ensures t.response.ServerError? <==>
      && s.apiKey.Some?
      && debater(DebaterQuery(Prior(s), msg)).Returned?
      && Judge.JudgeData(judge(JudgeQuery(s.topic, PreviousModelUtterance(Prior(s) + [Turn(User, msg)]), msg)), parse)
         == Judge.NonObject
    ensures t.response.ServerError? ==>
      t.session.chat == Some(Prior(s) + [Turn(User, msg), Turn(Model, debater(DebaterQuery(Prior(s), msg)).value)])
  {
    if s.apiKey.None? then Turned(s, st, Failure(NoKey))
    else
      var working := Working(s, msg);
      var data := TurnJudgeData(s, msg, judge, parse);
      HistoryExcludesNewMessage(Prior(s), msg);
      match debater(DebaterQuery(AllButLast(working), msg))
      case Raised(e) => Turned(AfterDebaterFailure(s, working), st, Failure(ReplyFailedPrefix + e))
      case Returned(reply) =>
        // the one difference: `.get` raises on data that is not an object
        match Judge.ReadVerdictAsWritten(data)
        case None => Turned(WithReply(s, msg, reply), st, ServerError)
        case Some(v) => Replied(s, msg, reply, v, st, date, saveFails)
  }

  /** The handler as written and the corrected one agree on every turn whose
      judge data is a JSON object (or is replaced by the fallback object). */
  lemma AsWrittenAgreesOnObjects(s: Session, msg: string,
                                 judge: JudgeQuery -> Call<string>, parse: string -> Option<Judge.Json>,
                                 debater: DebaterQuery -> Call<string>,
                                 st: Ledger.Store, date: string, saveFails: bool)
    ensures var t := RespondAsWritten(s, msg, judge, parse, debater, st, date, saveFails);
      t.response.ServerError? || t == Respond(s, msg, judge, parse, debater, st, date, saveFails)
    ensures var reply := judge(JudgeQuery(s.topic, PreviousModelUtterance(Prior(s) + [Turn(User, msg)]), msg));
      (reply.Raised? || parse(Fences.StripFences(reply.value)) != Some(Judge.NonObject)) ==>
        RespondAsWritten(s, msg, judge, parse, debater, st, date, saveFails)
        == Respond(s, msg, judge, parse, debater, st, date, saveFails)
  {
  }

  /** A judge reply such as "[]" decodes to a list: the handler as written
      updates the transcript and then fails with a server error, where the
      corrected handler returns the debater's reply with the neutral verdict. */
  lemma NonObjectJudgeReplyCrashes()
    ensures var s := Session(Some("key"), Some([]), Some("vacinas"));
      var judge := (q: JudgeQuery) => Returned("[]");
      var parse := (text: string) => Some(Judge.NonObject);
      var debater := (q: DebaterQuery) => Returned("resposta");
      && RespondAsWritten(s, "mensagem", judge, parse, debater, Ledger.Missing, "2024-01-01 10:00", false)
         == Turned(s.(chat := Some([Turn(User, "mensagem"), Turn(Model, "resposta")])), Ledger.Missing, ServerError)
      && Respond(s, "mensagem", judge, parse, debater, Ledger.Missing, "2024-01-01 10:00", false).response
         == Reply("resposta", Judge.NeutralScore, Judge.UnavailableFeedback, false)
  {
    assert [] + [Turn(User, "mensagem")] + [Turn(Model, "resposta")] == [Turn(User, "mensagem"), Turn(Model, "resposta")];
  }

  /** A debate opened and then played for two turns holds, in order: the
      opening prompt, the opening reply, and each user message followed by
      the debater's answer to it. */
  lemma TranscriptAfterStartAndTwoTurns(s: Session, topic: string, fallacy: string,
                                        opener: string -> Call<string>,
                                        judge: JudgeQuery -> Call<string>, parse: string -> Option<Judge.Json>,
                                        debater: DebaterQuery -> Call<string>,
                                        m1: string, m2: string,
                                        st: Ledger.Store, date: string, saveFails: bool)
    requires s.apiKey.Some? && topic != "" && fallacy in Fallacies
    requires opener(OpeningPrompt(topic, fallacy)).Returned?
    requires forall q :: debater(q).Returned?
    ensures var s0 := StartDebate(s, Some(topic), fallacy, opener).session;
      var t1 := Respond(s0, m1, judge, parse, debater, st, date, saveFails);
      var t2 := Respond(t1.session, m2, judge, parse, debater, t1.store, date, saveFails);
      var p := OpeningPrompt(topic, fallacy);
      var o := opener(p).value;
      var r1 := debater(DebaterQuery([Turn(User, p), Turn(Model, o)], m1)).value;
      var r2 := debater(DebaterQuery([Turn(User, p), Turn(Model, o), Turn(User, m1), Turn(Model, r1)], m2)).value;
      t2.session.chat == Some([Turn(User, p), Turn(Model, o), Turn(User, m1), Turn(Model, r1), Turn(User, m2), Turn(Model, r2)])
  {
    var s0 := StartDebate(s, Some(topic), fallacy, opener).session;
    var p := OpeningPrompt(topic, fallacy);
    var o := opener(p).value;
    assert Prior(s0) == [Turn(User, p), Turn(Model, o)];
    var t1 := Respond(s0, m1, judge, parse, debater, st, date, saveFails);
    var r1 := debater(DebaterQuery(Prior(s0), m1)).value;
    assert t1.response.Reply? && t1.response.message == r1;
    assert Prior(t1.session) == [Turn(User, p), Turn(Model, o), Turn(User, m1), Turn(Model, r1)];
    var t2 := Respond(t1.session, m2, judge, parse, debater, t1.store, date, saveFails);
    var r2 := debater(DebaterQuery(Prior(t1.session), m2)).value;
    assert t2.response.Reply? && t2.response.message == r2;
    assert t2.session.chat == Some(Prior(t1.session) + [Turn(User, m2), Turn(Model, r2)]);
    assert Prior(t1.session) + [Turn(User, m2), Turn(Model, r2)]
        == [Turn(User, p), Turn(Model, o), Turn(User, m1), Turn(Model, r1), Turn(User, m2), Turn(Model, r2)];
  }

  /** One turn whose judge always answers with score 97 and no other
      field appends one row won by the student. */
  lemma ExtremeTurnAppends(s: Session, msg: string,
                           judge: JudgeQuery -> Call<string>, parse: string -> Option<Judge.Json>,
                           debater: DebaterQuery -> Call<string>,
                           st: Ledger.Store, date: string)
    requires s.apiKey.Some?
    requires forall q :: debater(q).Returned?
    requires forall q :: judge(q).Returned?
    requires forall text :: parse(text) == Some(Judge.Object(Judge.Fields(Some(97), None, None)))
    ensures var t := Respond(s, msg, judge, parse, debater, st, date, false);
      && t.session.apiKey == s.apiKey && t.session.topic == s.topic
      && Ledger.Rows(t.store) == Ledger.Rows(st)
           + [Ledger.Record(date, s.topic.GetOr(Ledger.UnknownTopic), 97, Ledger.Student)]
  {
    var t := Respond(s, msg, judge, parse, debater, st, date, false);
    var reply := judge(JudgeQuery(s.topic, PreviousModelUtterance(Prior(s) + [Turn(User, msg)]), msg));
    assert parse(Fences.StripFences(reply.value)) == Some(Judge.Object(Judge.Fields(Some(97), None, None)));
    assert t.response.Reply? && t.response.score == 97;
  }

  /** The ledger keeps no memory of earlier writes: two turns of the same
      debate that both score at an extreme add two rows. */
  lemma EveryExtremeTurnWrites(s: Session, m1: string, m2: string,
                               judge: JudgeQuery -> Call<string>, parse: string -> Option<Judge.Json>,
                               debater: DebaterQuery -> Call<string>,
                               st: Ledger.Store, date1: string, date2: string)
    requires s.apiKey.Some?
    requires forall q :: debater(q).Returned?
    requires forall q :: judge(q).Returned?
    requires forall text :: parse(text) == Some(Judge.Object(Judge.Fields(Some(97), None, None)))
    ensures var t1 := Respond(s, m1, judge, parse, debater, st, date1, false);
      var t2 := Respond(t1.session, m2, judge, parse, debater, t1.store, date2, false);
      Ledger.Rows(t2.store) == Ledger.Rows(st)
        + [Ledger.Record(date1, s.topic.GetOr(Ledger.UnknownTopic), 97, Ledger.Student)]
        + [Ledger.Record(date2, s.topic.GetOr(Ledger.UnknownTopic), 97, Ledger.Student)]
  {
    var rec1 := Ledger.Record(date1, s.topic.GetOr(Ledger.UnknownTopic), 97, Ledger.Student);
    var rec2 := Ledger.Record(date2, s.topic.GetOr(Ledger.UnknownTopic), 97, Ledger.Student);
    var t1 := Respond(s, m1, judge, parse, debater, st, date1, false);
    assert t1.session.apiKey == s.apiKey && t1.session.topic == s.topic
                  && Ledger.Rows(t1.store) == Ledger.Rows(st) + [rec1] by {
      ExtremeTurnAppends(s, m1, judge, parse, debater, st, date1);
    }
    var t2 := Respond(t1.session, m2, judge, parse, debater, t1.store, date2, false);
    assert Ledger.Rows(t2.store) == Ledger.Rows(t1.store) + [rec2] by {
      ExtremeTurnAppends(t1.session, m2, judge, parse, debater, t1.store, date2);
    }
  }

  /** A turn scored at the neutral 50 -- which includes every turn whose
      judge failed -- never writes to the ledger. */
  lemma NeutralTurnNeverWrites(s: Session, msg: string,
                               judge: JudgeQuery -> Call<string>, parse: string -> Option<Judge.Json>,
                               debater: DebaterQuery -> Call<string>,
                               st: Ledger.Store, date: string, saveFails: bool)
    requires Respond(s, msg, judge, parse, debater, st, date, saveFails).response.Reply?
    requires Respond(s, msg, judge, parse, debater, st, date, saveFails).response.score == Judge.NeutralScore
    ensures Respond(s, msg, judge, parse, debater, st, date, saveFails).store == st
  {
  }
}

=== FILE: fences.dfy ===
/** The clean-up applied to the judge's reply before it is decoded as JSON
    (app.py line 150): every "```json" is removed, then every "```", then
    surrounding whitespace is trimmed. */
module Fences {

  const Fence: string := "```"
  const JsonFence: string := "```json"

  /** `pat` occurs in `s` starting at index `i`. */
  predicate Occurs(s: string, pat: string, i: int) {
    0 <= i && i + |pat| <= |s| && s[i..i + |pat|] == pat
  }

  predicate Absent(s: string, pat: string) {
    forall i | 0 <= i <= |s| :: !Occurs(s, pat, i)
  }

  /** Python's `s.replace(pat, '')`: scanning left to right, each
      non-overlapping occurrence of `pat` is dropped. Replacing the empty
      string by the empty string leaves `s` as it is. */
  function RemoveAll(s: string, pat: string): (r: string)
    ensures |r| <= |s|
    ensures forall c :: c in r ==> c in s
    ensures Absent(s, pat) ==> r == s
    ensures |pat| > 0 && !Absent(s, pat) ==> |r| < |s|
    decreases |s|
  {
    if |pat| == 0 then s
    else if |pat| <= |s| && s[..|pat|] == pat then
      assert Occurs(s, pat, 0);
      RemoveAll(s[|pat|..], pat)
    else if |s| == 0 then s
    else
      assert forall i :: Occurs(s[1..], pat, i) ==> Occurs(s, pat, i + 1) by {
        forall i | Occurs(s[1..], pat, i)
          ensures Occurs(s, pat, i + 1)
        {
          OccursInTail(s, pat, i);
        }
      }
      assert !Absent(s, pat) ==> !Absent(s[1..], pat) by {
        if !Absent(s, pat) {
          var i :| 0 <= i <= |s| && Occurs(s, pat, i);
          assert i != 0;
          OccursInRest(s, pat, i);
        }
      }
      assert [s[0]] + s[1..] == s;
      [s[0]] + RemoveAll(s[1..], pat)
  }

  /** Python's `str.isspace` for one character: the characters `str.strip()`
      removes when it is called without arguments. */
  predicate IsSpace(c: char) {
    var n := c as int;
    n == 0x20 || 0x09 <= n <= 0x0D || 0x1C <= n <= 0x1F || n == 0x85 || n == 0xA0
    || n == 0x1680 || 0x2000 <= n <= 0x200A || n == 0x2028 || n == 0x2029
    || n == 0x202F || n == 0x205F || n == 0x3000
  }

  function TrimStart(s: string): (r: string)
    ensures |r| <= |s| && r == s[|s| - |r|..]
    ensures forall k :: 0 <= k < |s| - |r| ==> IsSpace(s[k])
    ensures |r| > 0 ==> !IsSpace(r[0])
  {
    if |s| > 0 && IsSpace(s[0]) then TrimStart(s[1..]) else s
  }

  function TrimEnd(s: string): (r: string)
    ensures |r| <= |s| && r == s[..|r|]
    ensures forall k :: |r| <= k < |s| ==> IsSpace(s[k])
    ensures |r| > 0 ==> !IsSpace(r[|r| - 1])
  {
    if |s| > 0 && IsSpace(s[|s| - 1]) then TrimEnd(s[..|s| - 1]) else s
  }

  /** Python's `s.strip()`. */
  function Trim(s: string): (r: string)
    ensures |r| <= |s|
    ensures |r| > 0 ==> !IsSpace(r[0]) && !IsSpace(r[|r| - 1])
  {
    var t := TrimStart(s);
    var r := TrimEnd(t);
    assert |r| > 0 ==> r[0] == t[0];
    r
  }

  /** The judge-reply clean-up of app.py line 150. */
  function StripFences(s: string): (r: string)
    ensures Absent(r, Fence)
    ensures |r| > 0 ==> !IsSpace(r[0]) && !IsSpace(r[|r| - 1])
    // text without fences is only trimmed
    ensures Absent(s, Fence) ==> r == Trim(s)
  {
    assert Absent(s, Fence) ==> Absent(s, JsonFence) by {
      if Absent(s, Fence) { NoJsonFence(s); }
    }
    var r := Trim(RemoveAll(RemoveAll(s, JsonFence), Fence));
    RemoveFenceLeavesNone(RemoveAll(s, JsonFence));
    TrimKeepsAbsent(RemoveAll(RemoveAll(s, JsonFence), Fence), Fence);
    r
  }

  // ---------------------------------------------------------------------
  // Why no fence survives: inside a run of n backticks the left-to-right
  // scan removes three at a time and leaves n % 3 of them.

  /** The number of backticks `s` starts with. */
  function LeadTicks(s: string): nat
    decreases |s|
  {
    if |s| > 0 && s[0] == '`' then 1 + LeadTicks(s[1..]) else 0
  }

  lemma FenceAtStart(s: string)
    ensures Occurs(s, Fence, 0) <==> LeadTicks(s) >= 3
  {
    if |s| >= 3 && s[0] == '`' && s[1] == '`' && s[2] == '`' {
      assert s[1..][1..] == s[2..];
      assert s[..3] == Fence;
    }
    if Occurs(s, Fence, 0) {
      assert s[0] == Fence[0] && s[1] == Fence[1] && s[2] == Fence[2];
      assert s[1..][1..] == s[2..];
    }
    if LeadTicks(s) >= 3 {
      var t := s[1..];
      assert s[0] == '`' && LeadTicks(t) >= 2;
      assert t[0] == '`' && LeadTicks(t[1..]) >= 1;
      assert t[1..][0] == '`';
      assert s[..3] == Fence;
    }
  }

  /** A run of `k` leading backticks contributes exactly `k` to the count. */
  lemma {:induction false} LeadTicksDrop(s: string, k: nat)
    requires k <= |s| && forall j :: 0 <= j < k ==> s[j] == '`'
    ensures LeadTicks(s) == k + LeadTicks(s[k..])
    decreases k
  {
    if k > 0 {
      assert s[1..][k - 1..] == s[k..];
      LeadTicksDrop(s[1..], k - 1);
    }
  }

  lemma {:induction false} RemoveFenceLeadTicks(s: string)
    ensures LeadTicks(RemoveAll(s, Fence)) == LeadTicks(s) % 3
    decreases |s|
  {
    var r := RemoveAll(s, Fence);
    if |Fence| <= |s| && s[..|Fence|] == Fence {
      assert Occurs(s, Fence, 0);
      RemoveFenceLeadTicks(s[3..]);
      assert s[0] == '`' && s[1] == '`' && s[2] == '`' by {
        assert s[0] == s[..3][0] && s[1] == s[..3][1] && s[2] == s[..3][2];
      }
      LeadTicksDrop(s, 3);
    } else if |s| == 0 {
    } else {
      RemoveFenceLeadTicks(s[1..]);
      assert !Occurs(s, Fence, 0);
      FenceAtStart(s);
      assert r == [s[0]] + RemoveAll(s[1..], Fence);
      assert r[1..] == RemoveAll(s[1..], Fence);
    }
  }

  lemma OccursInTail(s: string, pat: string, i: int)
    requires |s| > 0 && Occurs(s[1..], pat, i)
    ensures Occurs(s, pat, i + 1)
  {
  }

  lemma OccursInRest(s: string, pat: string, i: int)
    requires i >= 1 && Occurs(s, pat, i)
    ensures Occurs(s[1..], pat, i - 1)
  {
    assert s[1..][i - 1..i - 1 + |pat|] == s[i..i + |pat|];
  }

  lemma OccursInDrop(s: string, k: nat, pat: string, i: int)
    requires k <= |s| && Occurs(s[k..], pat, i)
    ensures Occurs(s, pat, i + k)
  {
  }

  lemma OccursInTake(s: string, k: nat, pat: string, i: int)
    requires k <= |s| && Occurs(s[..k], pat, i)
    ensures Occurs(s, pat, i)
  {
  }

  /** After the `"```"` pass no fence is left in the text. */
  lemma {:induction false} RemoveFenceLeavesNone(s: string)
    ensures Absent(RemoveAll(s, Fence), Fence)
    decreases |s|
  {
    var r := RemoveAll(s, Fence);
    if |Fence| <= |s| && s[..|Fence|] == Fence {
      RemoveFenceLeavesNone(s[3..]);
    } else if |s| == 0 {
    } else {
      var rest := RemoveAll(s[1..], Fence);
      RemoveFenceLeavesNone(s[1..]);
      assert r == [s[0]] + rest;
      assert r[1..] == rest;
      RemoveFenceLeadTicks(s);
      forall i | Occurs(r, Fence, i)
        ensures false
      {
        if i == 0 {
          FenceAtStart(r);
        } else {
          assert r[1..][i - 1..i - 1 + 3] == r[i..i + 3];
          assert Occurs(rest, Fence, i - 1);
        }
      }
    }
  }

  /** Trimming cannot create an occurrence. */
  lemma TrimKeepsAbsent(s: string, pat: string)
    requires Absent(s, pat)
    ensures Absent(Trim(s), pat)
  {
    var t := TrimStart(s);
    var r := TrimEnd(t);
    forall i | Occurs(r, pat, i)
      ensures false
    {
      OccursInTake(t, |r|, pat, i);
      OccursInDrop(s, |s| - |t|, pat, i);
    }
  }

  /** Every "```json" starts with a fence, so a fence-free text holds none. */
  lemma NoJsonFence(s: string)
    requires Absent(s, Fence)
    ensures Absent(s, JsonFence)
  {
    forall i | Occurs(s, JsonFence, i)
      ensures false
    {
      assert s[i..i + 3] == s[i..i + 7][..3];
      assert Occurs(s, Fence, i);
    }
  }

  /** Removal passes over a prefix that holds no backtick, when the
      pattern starts with one. */
  lemma {:induction false} RemoveAllSkipsPlain(s: string, k: nat, pat: string)
    requires |pat| > 0 && pat[0] == '`' && k <= |s|
    requires forall i :: 0 <= i < k ==> s[i] != '`'
    ensures RemoveAll(s, pat) == s[..k] + RemoveAll(s[k..], pat)
    decreases k
  {
    if k > 0 {
      RemoveAllKeepsFirst(s, pat);
      assert s[1..][k - 1..] == s[k..];
      RemoveAllSkipsPlain(s[1..], k - 1, pat);
      PrefixShift(s, k, RemoveAll(s, pat), RemoveAll(s[1..], pat), RemoveAll(s[k..], pat));
    }
  }

  lemma PrefixShift(s: string, k: nat, whole: string, rest: string, w: string)
    requires 0 < k <= |s|
    requires whole == [s[0]] + rest && rest == s[1..][..k - 1] + w
    ensures whole == s[..k] + w
  {
    assert s[..k] == [s[0]] + s[1..][..k - 1];
  }

  /** A character that cannot start `pat` is kept, and the scan moves on. */
  lemma RemoveAllKeepsFirst(s: string, pat: string)
    requires |pat| > 0 && |s| > 0 && s[0] != pat[0]
    ensures RemoveAll(s, pat) == [s[0]] + RemoveAll(s[1..], pat)
  {
    assert |pat| <= |s| ==> s[..|pat|][0] == s[0];
  }

  /** An occurrence at the front is dropped, and the scan moves past it. */
  lemma RemoveAllDropsFirst(pat: string, rest: string)
    requires |pat| > 0
    ensures RemoveAll(pat + rest, pat) == RemoveAll(rest, pat)
  {
    assert (pat + rest)[..|pat|] == pat && (pat + rest)[|pat|..] == rest;
  }

  /** A verdict wrapped as a "```json" block comes out exactly as the text
      inside the block. */
  lemma FencedReplyUnwrapped(b: string)
    requires forall i :: 0 <= i < |b| ==> b[i] != '`'
    requires |b| > 0 ==> !IsSpace(b[0]) && !IsSpace(b[|b| - 1])
    ensures StripFences(JsonFence + b + Fence) == b
  {
    JsonPassUnwraps(b);
    FencePassUnwraps(b);
    assert TrimStart(b) == b;
    assert TrimEnd(b) == b;
  }

  lemma JsonPassUnwraps(b: string)
    requires forall i :: 0 <= i < |b| ==> b[i] != '`'
    ensures RemoveAll(JsonFence + b + Fence, JsonFence) == b + Fence
  {
    var u := b + Fence;
    assert JsonFence + b + Fence == JsonFence + u;
    RemoveAllDropsFirst(JsonFence, u);
    assert u[..|b|] == b && u[|b|..] == Fence;
    assert forall i :: 0 <= i < |b| ==> u[i] == b[i];
    RemoveAllSkipsPlain(u, |b|, JsonFence);
    FenceKeptByJsonPass();
  }

  lemma FenceKeptByJsonPass()
    ensures RemoveAll(Fence, JsonFence) == Fence
  {
    assert Absent(Fence, JsonFence);
  }

  lemma FencePassUnwraps(b: string)
    requires forall i :: 0 <= i < |b| ==> b[i] != '`'
    ensures RemoveAll(b + Fence, Fence) == b
  {
    var u := b + Fence;
    assert u[..|b|] == b && u[|b|..] == Fence;
    assert forall i :: 0 <= i < |b| ==> u[i] == b[i];
    RemoveAllSkipsPlain(u, |b|, Fence);
    assert RemoveAll(Fence, Fence) == RemoveAll(Fence[3..], Fence) == "";
    assert b + "" == b;
  }

  /** Cleaning an already cleaned reply changes nothing. */
  lemma StripFencesIdempotent(s: string)
    ensures StripFences(StripFences(s)) == StripFences(s)
  {
    var r := StripFences(s);
    NoJsonFence(r);
    assert TrimStart(r) == r;
    assert TrimEnd(r) == r;
  }
}

=== FILE: judge.dfy ===
/** The judge's verdict on a user rebuttal and the fallbacks applied when the
    judge cannot be used (app.py lines 145-155 and 189-196). */
module Judge {
  import opened Wrappers
  import Fences

  /** The three fields the judge is asked for; any of them may be missing
      from the decoded object. */
  datatype Fields = Fields(score: Option<int>, feedback: Option<string>, fallacy: Option<bool>)

  /** What `json.loads` decodes the cleaned reply to: an object, or any other
      JSON value (a list, a number, a string, ...). */
  datatype Json = Object(fields: Fields) | NonObject

  /** The verdict reported for a turn. */
  datatype Verdict = Verdict(score: int, feedback: string, fallacy: bool)

  const NeutralScore: int := 50
  const UnavailableFeedback: string := "Análise indisponível"
  const MissingFeedback: string := "Sem feedback"

  /** The object substituted when the judge call or the decoding fails. */
  const Unavailable: Fields := Fields(Some(NeutralScore), Some(UnavailableFeedback), Some(false))

  /** What the handler holds as the judge data after its first `try` block:
      `parse` stands for `json.loads` (None when it raises). */
  function JudgeData(reply: Call<string>, parse: string -> Option<Json>): (d: Json)
    ensures reply.Raised? ==> d == Object(Unavailable)
    ensures reply.Returned? && parse(Fences.StripFences(reply.value)).None? ==> d == Object(Unavailable)
    ensures d != Object(Unavailable) ==> reply.Returned? && parse(Fences.StripFences(reply.value)) == Some(d)
    ensures reply.Returned? && parse(Fences.StripFences(reply.value)).Some? ==>
      d == parse(Fences.StripFences(reply.value)).value
  {
    match reply
    case Raised(_) => Object(Unavailable)
    case Returned(raw) =>
      match parse(Fences.StripFences(raw))
      case None => Object(Unavailable)
      case Some(d) => d
  }

  /** Reading the judge data with per-field defaults. A value that is not an
      object is read as if the judge had failed. */
  function ReadVerdict(d: Json): (v: Verdict)
    ensures d.Object? ==> v.score == d.fields.score.GetOr(NeutralScore)
    ensures d.Object? && d.fields.feedback.None? ==> v.feedback == MissingFeedback
    ensures d.Object? && d.fields.feedback.Some? ==> v.feedback == d.fields.feedback.value
    ensures d.Object? ==> v.fallacy == d.fields.fallacy.GetOr(false)
    ensures d.NonObject? ==> v == Verdict(NeutralScore, UnavailableFeedback, false)
  {
    match d
    case Object(f) => Verdict(f.score.GetOr(NeutralScore), f.feedback.GetOr(MissingFeedback), f.fallacy.GetOr(false))
    case NonObject => Verdict(NeutralScore, UnavailableFeedback, false)
  }

  /** The reading the handler actually performs: `.get` on a value that is
      not a dict raises, and nothing catches it (None). */
  function ReadVerdictAsWritten(d: Json): (v: Option<Verdict>)
    ensures v.None? <==> d.NonObject?
    ensures v.Some? ==> v.value == ReadVerdict(d)
  {
    match d
    case Object(_) => Some(ReadVerdict(d))
    case NonObject => None
  }

  /** A failed judge yields the neutral verdict. */
  lemma JudgeFailureIsNeutral(reply: Call<string>, parse: string -> Option<Json>)
    requires reply.Raised? || parse(Fences.StripFences(reply.value)).None?
    ensures ReadVerdict(JudgeData(reply, parse)) == Verdict(NeutralScore, UnavailableFeedback, false)
  {
  }
}

=== FILE: ledger.dfy ===
/** The results ledger: the rows of `historico_debates.csv`, appended by
    `salvar_historico_pandas` and read back by `get_historico`. */
module Ledger {
  import opened Wrappers

  /** The `vencedor` column: 'Aluno' (the student) or 'IA' (the model). */
  datatype Winner = Student | Machine {
    function Name(): string {
      match this
      case Student => "Aluno"
      case Machine => "IA"
    }
  }

  /** One row: date, topic, final score, winner. The date is an opaque
      timestamp supplied by the caller. */
  datatype Record = Record(date: string, topic: string, score: int, winner: Winner)

  /** The ledger file, which may not exist. */
  datatype Store = Missing | Csv(rows: seq<Record>)

  const UnknownTopic: string := "Desconhecido"
  const RecentLimit: nat := 10

  function Rows(st: Store): seq<Record> {
    match st
    case Missing => []
    case Csv(rows) => rows
  }

  /** A turn's score is extreme enough to be written to the ledger. */
  predicate Extreme(score: int) {
    score >= 95 || score <= 5
  }

  /** The winner recorded for a score: the student wins only strictly above
      the neutral 50. */
  function WinnerFor(score: int): (w: Winner)
    ensures w.Name() == "Aluno" <==> score > 50
    ensures w.Name() == "IA" <==> score <= 50
  {
    if score > 50 then Student else Machine
  }

  /** Among the scores that are written, the student wins exactly at the
      top of the scale and the model exactly at the bottom. */
  lemma ExtremeWinner(score: int)
    requires Extreme(score)
    ensures WinnerFor(score) == Student <==> score >= 95
    ensures WinnerFor(score) == Machine <==> score <= 5
  {
  }

  /** `salvar_historico_pandas`: read the file (or start an empty table when
      it is missing), append one row, write it back. Any exception on the way
      (`fails`) is caught and leaves the file as it was. */
  function Save(st: Store, date: string, topic: Option<string>, score: int, fails: bool): (st': Store)
    ensures fails ==> st' == st
    ensures !fails ==> st'.Csv? && |Rows(st')| == |Rows(st)| + 1
    ensures !fails ==> Rows(st')[..|Rows(st)|] == Rows(st)
    ensures !fails ==> Rows(st')[|Rows(st)|].score == score
    ensures !fails ==> Rows(st')[|Rows(st)|].date == date
    ensures !fails ==> Rows(st')[|Rows(st)|].topic == topic.GetOr(UnknownTopic)
    ensures !fails ==> (Rows(st')[|Rows(st)|].winner == Student <==> score > 50)
  {
    if fails then st
    else Csv(Rows(st) + [Record(date, topic.GetOr(UnknownTopic), score, WinnerFor(score))])
  }

  function Min(a: int, b: int): int {
    if a <= b then a else b
  }

  /** The last `n` rows, as `DataFrame.tail(n)` returns them. */
  function Tail(rows: seq<Record>, n: nat): seq<Record> {
    rows[|rows| - Min(n, |rows|)..]
  }

  /** The rows in the opposite order (`iloc[::-1]`). */
  function Reverse(s: seq<Record>): seq<Record> {
    if |s| == 0 then [] else [s[|s| - 1]] + Reverse(s[..|s| - 1])
  }

  /** The rows `get_historico` reads back: at most ten, most recent first,
      so position i holds row n-1-i. */
  function Recent(rows: seq<Record>): (r: seq<Record>)
    ensures |r| == Min(RecentLimit, |rows|)
  {
    seq(Min(RecentLimit, |rows|), i requires 0 <= i < Min(RecentLimit, |rows|) => rows[|rows| - 1 - i])
  }

  lemma {:induction false} ReverseAt(s: seq<Record>, i: int)
    requires 0 <= i < |s|
    ensures |Reverse(s)| == |s| && Reverse(s)[i] == s[|s| - 1 - i]
    decreases |s|
  {
    if i > 0 {
      ReverseAt(s[..|s| - 1], i - 1);
    }
    ReverseLength(s);
  }

  lemma {:induction false} ReverseLength(s: seq<Record>)
    ensures |Reverse(s)| == |s|
    decreases |s|
  {
    if |s| > 0 {
      ReverseLength(s[..|s| - 1]);
    }
  }

  /** The recent view is exactly pandas' `tail(10)` followed by `iloc[::-1]`. */
  lemma RecentIsReversedTail(rows: seq<Record>)
    ensures Recent(rows) == Reverse(Tail(rows, RecentLimit))
  {
    var t := Tail(rows, RecentLimit);
    ReverseLength(t);
    forall i | 0 <= i < |t|
      ensures Reverse(t)[i] == Recent(rows)[i]
    {
      ReverseAt(t, i);
    }
  }

  /** `get_historico`: the recent rows, or nothing when the file is missing
      or reading it raises (`fails`). */
  function History(st: Store, fails: bool): (r: seq<Record>)
    ensures fails || st.Missing? ==> r == []
    ensures !fails && st.Csv? ==> |r| == Min(RecentLimit, |st.rows|)
    ensures !fails && st.Csv? ==> forall i :: 0 <= i < |r| ==> r[i] == st.rows[|st.rows| - 1 - i]
  {
    if fails then []
    else match st
      case Missing => []
      case Csv(rows) => Recent(rows)
  }

  /** Appending a row puts it first in the recent view and shifts the
      earlier view down by one place. */
  lemma RecentAfterAppend(rows: seq<Record>, rec: Record)
    ensures Recent(rows + [rec]) == [rec] + Recent(rows)[..Min(RecentLimit - 1, |rows|)]
  {
  }

  /** A row just written is read back first, followed by what was read
      back before it, cut to nine rows. */
  lemma SavedRowReadFirst(st: Store, date: string, topic: Option<string>, score: int)
    ensures History(Save(st, date, topic, score, false), false)
      == [Record(date, topic.GetOr(UnknownTopic), score, WinnerFor(score))]
         + History(st, false)[..Min(RecentLimit - 1, |Rows(st)|)]
  {
  }
}

=== FILE: transcript.dfy ===
/** The chat transcript kept in the session (`historico_chat`): an ordered
    list of turns, each spoken by the user or by the model. */
module Transcript {
  import opened Wrappers

  datatype Role = User | Model

  datatype Turn = Turn(role: Role, text: string)

  /** What the judge is told the model said last when there is nothing to
      quote. */
  const Beginning: string := "Início"

  /** `k` is the most recent model turn of `h`. */
  predicate MostRecentModel(h: seq<Turn>, k: int) {
    0 <= k < |h| && h[k].role == Model && forall j :: k < j < |h| ==> h[j].role != Model
  }

  /** Index of the most recent model turn, scanning from the end. */
  function LastModelIndex(h: seq<Turn>): (r: Option<nat>)
    ensures r.Some? ==> MostRecentModel(h, r.value)
    ensures r.None? <==> forall k :: 0 <= k < |h| ==> h[k].role != Model
  {
    if |h| == 0 then None
    else if h[|h| - 1].role == Model then Some(|h| - 1)
    else
      var r := LastModelIndex(h[..|h| - 1]);
      assert forall k :: 0 <= k < |h| - 1 ==> h[..|h| - 1][k] == h[k];
      r
  }

  /** The model utterance quoted to the judge, computed from the transcript
      that already ends with the new user message (app.py lines 131-136). */
  function PreviousModelUtterance(working: seq<Turn>): (u: string)
    ensures |working| < 3 ==> u == Beginning
    ensures (forall k :: 0 <= k < |working| - 1 ==> working[k].role != Model) ==> u == Beginning
    ensures forall k :: |working| >= 3 && MostRecentModel(working[..|working| - 1], k) ==> u == working[k].text
  {
    if |working| >= 3 then
      var before := working[..|working| - 1];
      assert forall k :: 0 <= k < |before| ==> before[k] == working[k];
      match LastModelIndex(before)
      case Some(k) => before[k].text
      case None => Beginning
    else Beginning
  }

  /** The conversation handed to the debater: every turn but the last, which
      is the new user message sent on its own (app.py lines 163-178). */
  function AllButLast(working: seq<Turn>): seq<Turn> {
    if |working| == 0 then [] else working[..|working| - 1]
  }

  lemma HistoryExcludesNewMessage(prior: seq<Turn>, msg: string)
    ensures AllButLast(prior + [Turn(User, msg)]) == prior
  {
    assert (prior + [Turn(User, msg)])[..|prior|] == prior;
  }

  /** The first rebuttal after a debate opens is judged against the
      debater's opening statement. */
  lemma FirstRebuttalQuotesOpening(prompt: string, opening: string, msg: string)
    ensures PreviousModelUtterance([Turn(User, prompt), Turn(Model, opening), Turn(User, msg)]) == opening
  {
    var w := [Turn(User, prompt), Turn(Model, opening), Turn(User, msg)];
    assert w[..|w| - 1] == [Turn(User, prompt), Turn(Model, opening)];
    assert MostRecentModel(w[..|w| - 1], 1);
  }
}

=== FILE: wrappers.dfy ===
/** Small failure-carrying datatypes shared by the debate model. */
module Wrappers {

  /** A value that may be absent: a missing key of a Flask session or of a
      request body, a JSON field that is not there. */
  datatype Option<+T> = None | Some(value: T) {

    /** The value, or `default` when absent (Python's `dict.get(key, default)`). */
    function GetOr(default: T): T {
      match this
      case Some(v) => v
      case None => default
    }
  }

  /** The outcome of a call into the external text-generation service: the
      text it returned, or the message of the exception it raised. */
  datatype Call<+T> = Returned(value: T) | Raised(reason: string)
}
